=== FILE: README.md ===
# Minesweeper board engine in Dafny

This project models the board engine of the console Minesweeper game (`src/Minesweeper.java`) and proves properties about it.

The engine keeps three grids of the same size:
- a character board holding `M` for a mine, a digit `1`..`8` or a blank;
- the revealed cells;
- the flagged cells.

It also keeps a counter, `remainingCells`, of the safe cells that are still covered.

Construction works in three steps:
1. Every cell is set to the covered marker.
2. Mines are placed by rejection sampling.
3. Every non-mine cell is numbered with the count of mines in its clipped 3x3 window.

A move is valid when it names a cell on the board that is not yet revealed.
- `reveal` marks the cell revealed.
  - On a mine, the game is lost.
  - Otherwise it decrements the counter. On a blank cell it recursively reveals every in-bounds, covered, non-mine neighbour, and the game is won when the counter reaches 0.
- `flag` and `unflag` set or clear the flag of a valid cell.
- The display prints the flag marker for a flagged cell, the covered marker for a covered cell, and the board character otherwise.

Modules:
- `Grid` (`grid.dfy`): the character board, its cells, the 3x3 window of displacements in the order the engine's loops visit them, and cell counting.
- `Adjacency` (`adjacency.dfy`): the window count of mines and the character stored for a count. `countAdjacentMines` is modelled as a method with the engine's two nested loops.
- `Setup` (`setup.dfy`): mine placement and the numbering pass, both as methods with the engine's loops.
- `Engine` (`engine.dfy`): the game state, the constructor, the move guard, `reveal` with its cascade, `flag`, `unflag` and the display glyph.
- `Properties` (`properties.dfy`): lemmas relating several moves, whole sessions of commands, and the two worked examples of a 1x3 board without mines and a 2x2 board with a corner mine.

The model is functional:
- A game is an immutable `Game` value.
- The revealed and flagged grids are sets of cells.
- Each move returns the new game.
- `reveal` returns a `Status` (`InProgress`, `Won` or `Lost`) where the engine ends the process.

Two things make that replacement exact:
- A cascade never enters a mine, so a loss only happens at the top-level call.
- When a nested call wins, no covered safe cell is left. The engine exits inside that nested call (src/Minesweeper.java:130), so no outer loop iteration runs; the model's cascade stops at the same point.

The termination measure of the mutual recursion between `Reveal` and `Cascade` is the set of covered cells. Every nested reveal has shrunk it.

The random source is an oracle: a finite sequence of in-bounds samples.
- A sample that already holds a mine is skipped, as the engine's loop skips it.
- If the samples run out before `numMines` distinct cells are found, there is no board (`None`).
- The engine never checks `numMines` against the board size. With more mines than cells, its placement loop never ends. `Setup.PlaceMines` therefore returns `None` for every sample sequence in that case.

The engine's window count includes the centre cell. This is harmless because the numbering pass only counts around non-mine cells. For those, the window count is proved equal to the number of mines among the up to eight Moore neighbours.

## Model

| member | source | states |
|---|---|---|
| Grid.CellsCard | src/Minesweeper.java:22 | A rows x cols grid has exactly rows * cols cells. |
| Grid.SafeCount | src/Minesweeper.java:25 | The safe cells are the grid minus the mines, so there are rows * cols minus the number of mines of them; this is the counter's starting value. |
| Grid.Blank | src/Minesweeper.java:30-34 | The freshly covered board has every cell covered and no mines. |
| Grid.SetMine | src/Minesweeper.java:41-43 | Writing a mine adds exactly that cell to the mine set. |
| Grid.SetSafe | src/Minesweeper.java:49-55 | Overwriting a non-mine cell with a non-mine character changes neither the mines nor the safe cells. |
| Adjacency.CountInIsHits | src/Minesweeper.java:60-74 | Counting hits displacement by displacement equals the number of mine cells the displacements reach, provided no displacement repeats. |
| Adjacency.CountInZero | src/Minesweeper.java:60-74 | The count is zero exactly when no window displacement lands on a mine. |
| Adjacency.AdjacentCount | src/Minesweeper.java:60-74 | The window count is at most 9, and at most 8 around a non-mine cell. |
| Adjacency.AdjacentCountExact | src/Minesweeper.java:60-74 | The window count is the number of mines in the 3x3 window; around a non-mine cell it is the number of mines among the in-bounds Moore neighbours. |
| Adjacency.AdjacentCountStable | src/Minesweeper.java:49 | The count depends on the board only through its mine cells, so overwriting non-mine cells during numbering leaves later counts unchanged. |
| Adjacency.WindowStep | src/Minesweeper.java:62-71 | One inner-loop iteration, with its bounds check and mine test, extends the count by exactly the window cell it inspects. |
| Adjacency.CountAdjacentMines | src/Minesweeper.java:60-74 | The nested loops return the number of mines in the clipped window, which for a non-mine cell is the exact number of mine neighbours and at most 8. |
| Adjacency.CellChar | src/Minesweeper.java:51-55 | A count is stored as blank exactly when it is 0, otherwise as a digit from 1 to 9; it is never a mine, covered or flag marker, and it reads back as the count. |
| Adjacency.CellCharInjective | src/Minesweeper.java:51-55 | Distinct counts are stored as distinct characters. |
| Adjacency.NumberedCell | src/Minesweeper.java:47-57 | On a numbered board, a non-mine cell is blank exactly when it has no mine neighbour, and its character reads back as the number of its mine neighbours. |
| Adjacency.NumberedSafeAroundEmpty | src/Minesweeper.java:47-57 | On a board numbered as the setup numbers it, every in-bounds neighbour of a blank cell is safe, which is what lets the flood fill open them without ever hitting a mine. |
| Setup.PlaceStep | src/Minesweeper.java:41-44 | Placing a mine on a non-mine cell adds one mine and keeps every other safe cell covered. |
| Setup.ElemsBound | src/Minesweeper.java:38-40 | In-bounds samples name at most rows * cols distinct cells. |
| Setup.PlaceMines | src/Minesweeper.java:36-45 | Placement fails exactly when the samples name fewer than numMines distinct cells; with more mines than cells it always fails. Otherwise the mines are exactly the distinct cells of a prefix of the samples, numMines of them, and every other cell is still covered. |
| Setup.AssignNumbers | src/Minesweeper.java:47-57 | The numbering pass keeps the mine set and leaves every non-mine cell holding the character for its adjacency count. |
| Setup.InitializeBoard | src/Minesweeper.java:29-58 | Initialisation fails exactly when placement does; otherwise the board has exactly numMines mines and is numbered. |
| Engine.NewGame | src/Minesweeper.java:18-27 | A constructed game is well formed: no cell revealed or flagged, exactly numMines mines, all drawn from the random source, and the counter equal to rows * cols - numMines, which is the number of covered safe cells. |
| Engine.OpenedNeighbour | src/Minesweeper.java:114-121 | The safe neighbour at any offset of an opened cell is revealed. |
| Engine.NoneRemaining | src/Minesweeper.java:127-131 | A counter of 0 means every safe cell is revealed, so every cell is opened. |
| Engine.Uncover | src/Minesweeper.java:106-112 | Revealing a covered safe cell adds it to the revealed set, lowers the counter by one and keeps the counter equal to the number of covered safe cells. |
| Engine.Explode | src/Minesweeper.java:106-110 | Revealing a mine adds it to the revealed set and leaves the counter unchanged. |
| Engine.Reveal | src/Minesweeper.java:103-132 | An invalid move changes nothing. A valid move reveals p. It is lost exactly when p is a mine, and then reveals only p and keeps the counter. Otherwise it reveals only safe cells and is won exactly when the counter reaches 0. A numbered cell reveals itself alone. Every blank cell it reveals ends with all its safe neighbours revealed. |
| Engine.Cascade | src/Minesweeper.java:113-125 | The cascade from the k-th window cell on never loses, reveals only safe cells, reveals every safe window cell from k on, and closes every blank cell it reveals. |
| Engine.ClosedAfterCascade | src/Minesweeper.java:113-125 | Once p and its whole window are revealed, closure from the state after p extends to the state before p. |
| Engine.Flag | src/Minesweeper.java:134-138 | A valid flag sets the flag of p. An invalid one changes nothing. The board, the revealed cells, the counter and every other flag are untouched. |
| Engine.Unflag | src/Minesweeper.java:140-144 | A valid unflag clears the flag of p. An invalid one changes nothing. The board, the revealed cells, the counter and every other flag are untouched. |
| Engine.IsValidMove | src/Minesweeper.java:99-101 | The move guard holds exactly for the covered cells of the board, that is, the cells of the grid minus the revealed ones; `Properties.ValidMoveChanges` relates it to the moves it guards. |
| Properties.ValidMoveChanges | src/Minesweeper.java:99-144 | A move is valid exactly when revealing it changes the game, and exactly when flagging and unflagging it give different games; on an invalid cell every command is a no-op. |
| Properties.WinCondition | src/Minesweeper.java:127-131 | The counter is 0 exactly when every safe cell is revealed. |
| Properties.RevealCounter | src/Minesweeper.java:106-112 | A reveal that does not lose lowers the counter by exactly the number of cells it newly reveals, so the counter plus the number of revealed cells is unchanged. A loss reveals one more cell and leaves the counter as it was. |
| Properties.CounterStep | src/Minesweeper.java:112 | Revealing a set of covered safe cells lowers the number of covered safe cells by the size of that set. |
| Properties.CascadeOpensNeighbours | src/Minesweeper.java:113-125 | When no blank cell has a mine neighbour, every blank cell a reveal uncovers ends with all its in-bounds neighbours revealed, and no cell other than the chosen one is a mine. |
| Properties.RevealOpensNeighbours | src/Minesweeper.java:113-125 | On every well-formed game, every blank cell a reveal uncovers ends with all its in-bounds neighbours revealed, and no cell other than the chosen one is a mine. |
| Properties.ClosedNeighbour | src/Minesweeper.java:117-123 | A safe in-bounds neighbour of a blank cell newly opened by the flood fill is revealed. |
| Properties.RevealKeepsFlags | src/Minesweeper.java:103-132 | Revealing a flagged covered cell reveals it and leaves every flag as it was, that cell's included. |
| Properties.FlagIdempotent | src/Minesweeper.java:134-144 | Flagging twice is flagging once, and likewise for unflagging. |
| Properties.FlagUnflagInverse | src/Minesweeper.java:134-144 | Unflag undoes flag on an unflagged cell, and flag undoes unflag on every flagged cell. |
| Engine.Glyph | src/Minesweeper.java:87-93 | On a numbered board the display shows the flag marker exactly for flagged cells and the covered marker exactly for unflagged covered cells; `Properties.GlyphShows` adds what a revealed cell shows. |
| Properties.GlyphShows | src/Minesweeper.java:87-93 | The display shows the flag marker exactly for flagged cells, and the covered marker exactly for unflagged covered cells. It shows the mine only for an unflagged revealed mine. For an unflagged revealed safe cell it shows a character that reads back as the number of mine neighbours, blank exactly when there are none. |
| Properties.Step | src/Minesweeper.java:167-180 | A command keeps the game valid on the same board. Revealed cells stay revealed. Flag and unflag never end the game and never reveal. |
| Properties.StepOutcome | src/Minesweeper.java:167-180 | One command from a well-formed game keeps it well formed. It loses exactly when it uncovers a mine, and it wins only with every safe cell revealed. |
| Properties.Play | src/Minesweeper.java:161-182 | Applying commands until one ends the game keeps the game valid on the same board and mine count, and never hides a revealed cell; `Properties.PlayOutcome` adds the win and loss conditions. |
| Properties.PlayOutcome | src/Minesweeper.java:161-182 | A session of commands that stops at the first terminal status keeps the game well formed on the same board. It is lost exactly when some uncovered cell is a mine, and it is won only with every safe cell revealed. |
| Properties.RowGame | src/Minesweeper.java:18-58 | The constructor on a 1x3 grid with no mines builds, for every random source, the all-blank game that `Properties.RowWithoutMines` plays. |
| Properties.RowBoard | src/Minesweeper.java:47-57 | The all-blank row is the only numbered 1x3 board without mines. |
| Properties.RowWithoutMines | src/Minesweeper.java:113-131 | On a 1x3 board without mines, revealing (0, 0) cascades along the row, reveals all three cells and wins. |
| Properties.RowWithoutMinesWellFormed | src/Minesweeper.java:47-57 | The 1x3 board without mines is numbered with blanks everywhere, and the game on it is well formed. |
| Properties.RowReveal | src/Minesweeper.java:113-131 | On any valid game whose three cells are all safe and blank, revealing the first cell reveals all three and wins. |
| Properties.CornerGame | src/Minesweeper.java:18-58 | The constructor on a 2x2 grid with one mine builds exactly the game that `Properties.CornerMine` plays whenever the first draw of the random source is (0, 0), whatever the later draws. |
| Properties.FirstDrawMine | src/Minesweeper.java:36-45 | A single mine placed from a prefix of the draws is the first draw. |
| Properties.CornerBoard | src/Minesweeper.java:47-57 | The board with its mine at (0, 0) and 1 elsewhere is the only numbered 2x2 board with that single mine. |
| Properties.CornerMine | src/Minesweeper.java:113-131 | On a 2x2 board with the mine at (0, 0), the other cells hold 1, and revealing (1, 1) reveals that cell alone, leaves 2 safe cells covered and keeps the game in progress. |
| Properties.NumberedRevealsOne | src/Minesweeper.java:112-131 | Revealing a covered numbered cell when more than one safe cell is covered reveals that cell alone, lowers the counter by one and keeps the game in progress. |

## Left out

- `java.util.Random` (src/Minesweeper.java:36-40) is replaced by a finite sequence of in-bounds samples. When the samples run out before `numMines` distinct cells are found, the result is `None`. This stands for the loop still running; the probability that it terminates is not modelled.
- The console messages and `System.exit` in `reveal` are replaced by the returned `Status`. The board display after a win is left out.
- `displayBoard` printing (headers, indices, spacing) is left out. Only the per-cell glyph choice is modelled, as `Engine.Glyph`.
- `main`, the `Scanner` input and the parsing of the command letter are left out. Only the dispatch of already-parsed commands is modelled, as `Properties.Step` and `Properties.Play`. The "Invalid command" branch needs no model, because it calls no engine operation.
- 32-bit `int` wrap-around is not modelled: `rows * cols - numMines` (src/Minesweeper.java:25) and the counter are unbounded integers, which agrees with Java only while `rows * cols < 2^31`. From 2^31 cells on, Java's product wraps; from 2^32 cells on, the wrapped counter can reach 0 at line 127 while safe cells are still covered, so Java declares a premature win that the model does not have.
- The depth of Java's recursion is not modelled: `reveal` recurses once per cascaded cell (src/Minesweeper.java:120), so a large blank region (a 200 x 200 board without mines, say) can overflow the JVM thread stack with a `StackOverflowError`. The model has no depth limit and returns `Won` there.
- Engine.NewGame: requires `rows > 0`, `cols > 0` and `numMines >= 0`, which the engine does not check.
  - With a negative size, the array allocation throws.
  - With a size of 0, `nextInt(0)` throws unless `numMines <= 0`, in which case the placement loop never runs.
  - With a negative `numMines`, no mine is placed but the counter starts above the number of safe cells, so the game can never be won.
- Setup.PlaceMines: requires the same, for the same reasons.
- Setup.InitializeBoard: requires the same, for the same reasons.
- `reveal` never reads or writes the flags, so a flagged cell stays flagged after it is revealed (`Properties.RevealKeepsFlags`). Nothing in the engine keeps a revealed cell unflagged.
- The code does not guard `numMines >= rows * cols`: with equality the counter starts at 0, and with more mines than cells placement never ends.
- Engine.Reveal: for a blank cell, the contract does not state that the reveal uncovers exactly the connected blank region and its border. It states the closure property: every newly revealed cell is safe, and every newly revealed blank cell has all its neighbours revealed.

=== FILE: adjacency.dfy ===
/** Adjacency numbering: how many mines surround a cell, and the character
    the engine stores for that count. */
module Adjacency {
  import opened Grid

  /** How many of the displacements ds, applied to p, land on a cell of
      mines. Counted from the last displacement backwards, so extending a
      prefix of ds by one displacement adds one term. */
  function CountIn(mines: set<Cell>, p: Cell, ds: seq<(int, int)>): (n: nat)
    ensures n <= |ds|
  {
    if |ds| == 0 then 0
    else
      CountIn(mines, p, ds[..|ds| - 1]) + (if Shift(p, ds[|ds| - 1]) in mines then 1 else 0)
  }

  /** One displacement that misses keeps the count below |ds|. */
  lemma {:induction false} CountInMiss(mines: set<Cell>, p: Cell, ds: seq<(int, int)>, k: nat)
    requires k < |ds| && Shift(p, ds[k]) !in mines
    ensures CountIn(mines, p, ds) < |ds|
  {
    if k < |ds| - 1 {
      var init := ds[..|ds| - 1];
      assert init[k] == ds[k];
      CountInMiss(mines, p, init, k);
    }
  }

  /** The count is zero exactly when no displacement lands on a mine. */
  lemma {:induction false} CountInZero(mines: set<Cell>, p: Cell, ds: seq<(int, int)>)
    ensures CountIn(mines, p, ds) == 0 <==> forall k | 0 <= k < |ds| :: Shift(p, ds[k]) !in mines
  {
    if |ds| > 0 {
      var init := ds[..|ds| - 1];
      CountInZero(mines, p, init);
      assert forall k | 0 <= k < |init| :: init[k] == ds[k];
    }
  }

  predicate Distinct(ds: seq<(int, int)>) {
    forall i, j | 0 <= i < j < |ds| :: ds[i] != ds[j]
  }

  /** The mines that the displacements ds reach from p. */
  ghost function Hits(mines: set<Cell>, p: Cell, ds: seq<(int, int)>): set<Cell> {
    set q | q in mines && (q.row - p.row, q.col - p.col) in ds
  }

  /** Counting displacements agrees with counting the cells they reach, as
      long as no displacement is listed twice. */
  lemma {:induction false} CountInIsHits(mines: set<Cell>, p: Cell, ds: seq<(int, int)>)
    requires Distinct(ds)
    ensures CountIn(mines, p, ds) == |Hits(mines, p, ds)|
  {
    if |ds| == 0 {
      assert Hits(mines, p, ds) == {};
    } else {
      var init, d := ds[..|ds| - 1], ds[|ds| - 1];
      var q := Shift(p, d);
      CountInIsHits(mines, p, init);
      assert d !in init by {
        forall k | 0 <= k < |init| ensures init[k] != d {
          assert init[k] == ds[k];
        }
      }
      var last: set<Cell> := if q in mines then {q} else {};
      HitsSnoc(mines, p, ds);
      assert Hits(mines, p, init) !! last;
    }
  }

  /** The cells reached by ds are those reached by all but its last
      displacement, plus the cell the last one reaches, if that is a mine. */
  lemma HitsSnoc(mines: set<Cell>, p: Cell, ds: seq<(int, int)>)
    requires |ds| > 0
    ensures var q := Shift(p, ds[|ds| - 1]);
      Hits(mines, p, ds) == Hits(mines, p, ds[..|ds| - 1]) + (if q in mines then {q} else {})
  {
    var init, d := ds[..|ds| - 1], ds[|ds| - 1];
    assert ds == init + [d];
    var q := Shift(p, d);
    forall x: Cell
      ensures x in Hits(mines, p, ds) <==> x in Hits(mines, p, init) || (x == q && q in mines)
    {
      var dx := (x.row - p.row, x.col - p.col);
      assert dx in ds <==> dx in init || dx == d;
      assert dx == d <==> x == q;
    }
  }

  lemma WindowDistinct()
    ensures Distinct(Window)
  {
  }

  lemma WindowMembership(d: (int, int))
    ensures d in Window <==> -1 <= d.0 <= 1 && -1 <= d.1 <= 1
  {
  }

  /** What the engine's countAdjacentMines computes for p: the mines in the
      clipped 3x3 window around p, p itself included. */
  function AdjacentCount(b: Board, p: Cell): (n: nat)
    requires b.Valid()
    ensures n <= 9
    ensures p !in b.Mines() ==> n <= 8
  {
    if p !in b.Mines() then
      assert Shift(p, Window[4]) == p;
      CountInMiss(b.Mines(), p, Window, 4);
      CountIn(b.Mines(), p, Window)
    else
      CountIn(b.Mines(), p, Window)
  }

  /** The mines in the 3x3 window centred on p. */
  ghost function WindowMines(b: Board, p: Cell): set<Cell>
    requires b.Valid()
  {
    set q | q in b.Mines() && InWindow(p, q)
  }

  /** The mines among the in-bounds Moore neighbours of p. */
  ghost function NeighbourMines(b: Board, p: Cell): set<Cell>
    requires b.Valid()
  {
    set q | q in b.Mines() && Adjacent(p, q)
  }

  /** The window displacements reach exactly the cells of the window. */
  lemma WindowHits(b: Board, p: Cell)
    requires b.Valid()
    ensures Hits(b.Mines(), p, Window) == WindowMines(b, p)
  {
    forall q: Cell ensures (q.row - p.row, q.col - p.col) in Window <==> InWindow(p, q) {
      WindowMembership((q.row - p.row, q.col - p.col));
    }
  }

  /** The window count is the number of mines in the window; for a cell that
      is not a mine it is exactly the number of mines among its neighbours. */
  lemma AdjacentCountExact(b: Board, p: Cell)
    requires b.Valid()
    ensures AdjacentCount(b, p) == |WindowMines(b, p)|
    ensures p !in b.Mines() ==> AdjacentCount(b, p) == |NeighbourMines(b, p)|
  {
    WindowDistinct();
    CountInIsHits(b.Mines(), p, Window);
    WindowHits(b, p);
    if p !in b.Mines() {
      assert WindowMines(b, p) == NeighbourMines(b, p);
    }
  }

  /** The count depends on the board only through its mine cells. */
  lemma AdjacentCountStable(b: Board, b': Board, p: Cell)
    requires b.Valid() && b'.Valid() && b.Mines() == b'.Mines()
    ensures AdjacentCount(b, p) == AdjacentCount(b', p)
  {
  }

  /** The character stored for a non-mine cell with n adjacent mines: the
      digit for n when n > 0, EMPTY otherwise. */
  function CellChar(n: nat): (ch: char)
    requires n <= 9
    ensures ch == EMPTY <==> n == 0
    ensures n > 0 ==> '1' <= ch <= '9'
    ensures ch != MINE && ch != COVERED && ch != FLAGGED
    ensures CountOf(ch) == n
  {
    if n > 0 then (n + '0' as int) as char else EMPTY
  }

  /** Reads a count back from a stored character. */
  function CountOf(ch: char): int {
    if ch == EMPTY then 0 else ch as int - '0' as int
  }

  /** Distinct counts are stored as distinct characters. */
  lemma CellCharInjective(m: nat, n: nat)
    requires m <= 9 && n <= 9
    ensures CellChar(m) == CellChar(n) <==> m == n
  {
    assert CountOf(CellChar(m)) == m && CountOf(CellChar(n)) == n;
  }

  /** Every non-mine cell holds the character for its adjacency count. */
  ghost predicate Numbered(b: Board)
    requires b.Valid()
  {
    forall p | p in b.Safe() :: b.At(p) == CellChar(AdjacentCount(b, p))
  }

  /** On a numbered board a non-mine cell is EMPTY exactly when none of its
      in-bounds neighbours is a mine, and the stored character reads back as
      the exact number of mines among its neighbours. */
  lemma NumberedCell(b: Board, p: Cell)
    requires b.Valid() && Numbered(b) && p in b.Safe()
    ensures b.At(p) == EMPTY <==> forall k | 0 <= k < |Window| :: Shift(p, Window[k]) !in b.Mines()
    ensures b.At(p) == EMPTY <==> NeighbourMines(b, p) == {}
    ensures CountOf(b.At(p)) == |NeighbourMines(b, p)|
  {
    CountInZero(b.Mines(), p, Window);
    AdjacentCountExact(b, p);
  }

  /** Every in-bounds neighbour of an EMPTY cell is safe. */
  ghost predicate SafeAroundEmpty(b: Board)
    requires b.Valid()
  {
    forall q, n | b.InBounds(q) && b.At(q) == EMPTY && b.InBounds(n) && Adjacent(q, n) :: b.At(n) != MINE
  }

  /** Numbering leaves EMPTY only on cells with no mine neighbour. */
  lemma NumberedSafeAroundEmpty(b: Board)
    requires b.Valid() && Numbered(b)
    ensures SafeAroundEmpty(b)
  {
    forall q, n | b.InBounds(q) && b.At(q) == EMPTY && b.InBounds(n) && Adjacent(q, n)
      ensures b.At(n) != MINE
    {
      NumberedCell(b, q);
      assert n !in NeighbourMines(b, q);
    }
  }

  /** The nested loops over row offset i and column offset j visit the
      window in its listed order. */
  lemma WindowIndex(i: int, j: int)
    requires -1 <= i <= 1 && -1 <= j <= 1
    ensures Window[3 * (i + 1) + (j + 1)] == (i, j)
  {
  }

  /** Extending a prefix of ds by one displacement adds that displacement's hit. */
  lemma CountInSnoc(mines: set<Cell>, p: Cell, ds: seq<(int, int)>, k: nat)
    requires k < |ds|
    ensures CountIn(mines, p, ds[..k + 1])
         == CountIn(mines, p, ds[..k]) + (if Shift(p, ds[k]) in mines then 1 else 0)
  {
    assert ds[..k + 1][..k] == ds[..k];
  }

  /** One iteration of the inner loop of countAdjacentMines extends the
      count by the window cell it inspects. */
  lemma WindowStep(b: Board, p: Cell, i: int, j: int, k: nat, before: nat, after: nat)
    requires b.Valid() && -1 <= i <= 1 && -1 <= j <= 1 && k == 3 * (i + 1) + (j + 1)
    requires before == CountIn(b.Mines(), p, Window[..k])
    requires var q := Cell(p.row + i, p.col + j);
      after == if b.InBounds(q) && b.At(q) == MINE then before + 1 else before
    ensures after == CountIn(b.Mines(), p, Window[..k + 1])
  {
    var q := Cell(p.row + i, p.col + j);
    WindowIndex(i, j);
    assert Shift(p, Window[k]) == q;
    assert q in b.Mines() <==> b.InBounds(q) && b.At(q) == MINE;
    CountInSnoc(b.Mines(), p, Window, k);
  }

  /** The engine's countAdjacentMines: scans the clipped 3x3 window around p
      with two nested loops and counts the MINE cells. */
  method CountAdjacentMines(b: Board, p: Cell) returns (count: nat)
    requires b.Valid()
    ensures count == AdjacentCount(b, p)
    ensures count == |WindowMines(b, p)|
    ensures p !in b.Mines() ==> count == |NeighbourMines(b, p)| && count <= 8
  {
    count := 0;
    ghost var mines := b.Mines();
    ghost var k := 0;
    var i := -1;
    while i <= 1
      invariant -1 <= i <= 2 && k == 3 * (i + 1)
      invariant count == CountIn(mines, p, Window[..k])
    {
      var j := -1;
      while j <= 1
        invariant -1 <= j <= 2 && k == 3 * (i + 1) + (j + 1)
        invariant count == CountIn(mines, p, Window[..k])
      {
        ghost var before := count;
        var q := Cell(p.row + i, p.col + j);
        if 0 <= q.row < b.rows && 0 <= q.col < b.cols {
          if b.At(q) == MINE {
            count := count + 1;
          }
        }
        WindowStep(b, p, i, j, k, before, count);
        j := j + 1;
        k := k + 1;
      }
      i := i + 1;
    }
    assert Window[..9] == Window;
    AdjacentCountExact(b, p);
  }
}

=== FILE: engine.dfy ===
/** The game state and its moves: the move guard, the recursive reveal with
    its cascade, flag and unflag, and the glyph shown for a cell. */
module Engine {
  import opened Grid
  import opened Adjacency
  import opened Setup

  /** The outcome of a move. The engine ends the process on a loss or a win;
      here the move returns the terminal status instead. */
  datatype Status = InProgress | Won | Lost

  /** The engine's state: the numbered board, the mine count, the revealed
      and flagged cells, and the counter of safe cells still covered. */
  datatype Game = Game(board: Board, numMines: int, revealed: set<Cell>, flagged: set<Cell>, remaining: int) {

    /** The counter agrees with the board: it is the number of safe cells
        that are still covered. */
    ghost predicate Valid() {
      && board.Valid()
      && revealed <= board.AllCells()
      && flagged <= board.AllCells()
      && remaining == |CoveredSafe(board, revealed)|
    }

    /** A game as construction leaves it and every move keeps it. */
    ghost predicate WellFormed() {
      Valid() && Numbered(board) && |board.Mines()| == numMines
    }

    ghost function Covered(): set<Cell>
      requires board.Valid()
    {
      board.AllCells() - revealed
    }
  }

  /** The safe cells of b outside r. */
  ghost function CoveredSafe(b: Board, r: set<Cell>): set<Cell>
    requires b.Valid()
  {
    set p | p in b.Safe() && p !in r
  }

  /** What a move never changes: the board, the mine count and the flags. */
  ghost predicate Preserves(g: Game, g': Game) {
    g'.board == g.board && g'.numMines == g.numMines && g'.flagged == g.flagged
  }

  /** The constructor: initialises the board from the samples and sets the
      counter to rows * cols - numMines. */
  method NewGame(rows: int, cols: int, numMines: int, samples: seq<Cell>) returns (r: Option<Game>)
    requires 0 < rows && 0 < cols && 0 <= numMines
    requires SamplesIn(rows, cols, samples)
    ensures r.None? <==> |Elems(samples)| < numMines
    ensures rows * cols < numMines ==> r.None?
    ensures r.Some? ==> r.value.WellFormed()
    ensures r.Some? ==> r.value.board.Mines() <= Elems(samples)
    ensures r.Some? ==> exists k | 0 <= k <= |samples| :: r.value.board.Mines() == Elems(samples[..k])
    ensures r.Some? ==> r.value.board.rows == rows && r.value.board.cols == cols && r.value.numMines == numMines
    ensures r.Some? ==> r.value.revealed == {} && r.value.flagged == {}
    ensures r.Some? ==> r.value.remaining == rows * cols - numMines
  {
    var b := InitializeBoard(rows, cols, numMines, samples);
    if b.None? {
      return None;
    }
    SafeCount(b.value);
    assert CoveredSafe(b.value, {}) == b.value.Safe();
    return Some(Game(b.value, numMines, {}, {}, rows * cols - numMines));
  }

  /** The move guard: p is on the board and not yet revealed. */
  function IsValidMove(g: Game, p: Cell): (v: bool)
    ensures v <==> p in g.board.AllCells() - g.revealed
  {
    0 <= p.row < g.board.rows && 0 <= p.col < g.board.cols && p !in g.revealed
  }

  /** Every in-bounds safe neighbour of q (q itself included) is revealed. */
  ghost predicate Opened(g: Game, q: Cell)
    requires g.board.Valid()
  {
    forall k | 0 <= k < |Window| ::
      Shift(q, Window[k]) in g.board.Safe() ==> Shift(q, Window[k]) in g.revealed
  }

  /** An opened cell's safe neighbour at offset (i, j) is revealed. */
  lemma OpenedNeighbour(g: Game, q: Cell, i: int, j: int)
    requires g.board.Valid() && Opened(g, q) && -1 <= i <= 1 && -1 <= j <= 1
    requires Cell(q.row + i, q.col + j) in g.board.Safe()
    ensures Cell(q.row + i, q.col + j) in g.revealed
  {
    var k := 3 * (i + 1) + (j + 1);
    WindowIndex(i, j);
    assert Shift(q, Window[k]) == Cell(q.row + i, q.col + j);
  }

  /** With no safe cell covered, every cell is opened. */
  lemma NoneRemaining(g: Game)
    requires g.Valid() && g.remaining == 0
    ensures g.board.Safe() <= g.revealed
    ensures forall q :: Opened(g, q)
  {
    assert CoveredSafe(g.board, g.revealed) == {};
    forall x | x in g.board.Safe() ensures x in g.revealed {
      assert x !in CoveredSafe(g.board, g.revealed);
    }
  }

  /** g' extends g by revealing safe cells only; board, mine count and
      flags are untouched. */
  ghost predicate Grows(g: Game, g': Game)
    requires g.board.Valid()
  {
    && Preserves(g, g')
    && g.revealed <= g'.revealed
    && g'.revealed - g.revealed <= g.board.Safe()
  }

  /** Every EMPTY cell that g' reveals beyond g is opened in g'. */
  ghost predicate Closed(g: Game, g': Game)
    requires g.board.Valid()
  {
    && g'.board == g.board
    && forall q | q in g'.revealed - g.revealed && g.board.InBounds(q) && g.board.At(q) == EMPTY ::
         Opened(g', q)
  }

  lemma GrowsTrans(g1: Game, g2: Game, g3: Game)
    requires g1.Valid() && g2.Valid() && g3.Valid()
    requires Grows(g1, g2) && Grows(g2, g3)
    ensures Grows(g1, g3)
  {
  }

  /** Opened cells stay opened as more cells are revealed, so closure composes. */
  lemma ClosedTrans(g1: Game, g2: Game, g3: Game)
    requires g1.Valid() && g2.Valid() && g3.Valid()
    requires Grows(g1, g2) && Grows(g2, g3)
    requires Closed(g1, g2) && Closed(g2, g3)
    ensures Closed(g1, g3)
  {
    forall q | q in g3.revealed - g1.revealed && g1.board.At(q) == EMPTY
      ensures Opened(g3, q)
    {
      if q in g2.revealed {
        assert Opened(g2, q);
      }
    }
  }

  /** Revealing p and then cascading from p leaves every newly revealed
      EMPTY cell opened, once p itself is opened. */
  lemma ClosedAfterCascade(g: Game, counted: Game, cascaded: Game, p: Cell)
    requires g.Valid() && counted.Valid() && cascaded.Valid()
    requires Grows(g, counted) && Grows(counted, cascaded)
    requires counted.revealed == g.revealed + {p}
    requires Closed(counted, cascaded) && Covers(counted, cascaded, p, 0)
    ensures Grows(g, cascaded) && Closed(g, cascaded)
  {
    GrowsTrans(g, counted, cascaded);
    assert Opened(cascaded, p);
  }

  /** Revealing a single cell that is not EMPTY opens nothing new to check. */
  lemma ClosedSingle(g: Game, counted: Game, p: Cell)
    requires g.Valid() && counted.Valid() && Grows(g, counted)
    requires counted.revealed == g.revealed + {p} && g.board.InBounds(p) && g.board.At(p) != EMPTY
    ensures Closed(g, counted)
  {
  }

  /** Marks the safe cell p revealed and decrements the counter. */
  function Uncover(g: Game, p: Cell): (g': Game)
    requires g.Valid() && IsValidMove(g, p) && g.board.At(p) != MINE
    ensures g'.Valid() && Grows(g, g')
    ensures g'.revealed == g.revealed + {p}
    ensures g'.remaining == g.remaining - 1
    ensures g'.Covered() < g.Covered()
  {
    assert CoveredSafe(g.board, g.revealed + {p}) == CoveredSafe(g.board, g.revealed) - {p};
    g.(revealed := g.revealed + {p}, remaining := g.remaining - 1)
  }

  /** Marks the mine p revealed; the counter is untouched. */
  function Explode(g: Game, p: Cell): (g': Game)
    requires g.Valid() && IsValidMove(g, p) && g.board.At(p) == MINE
    ensures g'.Valid() && Preserves(g, g')
    ensures g'.revealed == g.revealed + {p}
    ensures g'.remaining == g.remaining
  {
    assert CoveredSafe(g.board, g.revealed + {p}) == CoveredSafe(g.board, g.revealed);
    g.(revealed := g.revealed + {p})
  }

  /** reveal: a valid move marks p revealed; a mine loses without touching
      the counter; otherwise the counter drops by one, an EMPTY cell reveals
      its covered safe neighbours recursively, and the game is won when the
      counter reaches 0. The measure is the set of covered cells, which every
      nested call has shrunk. */
  function Reveal(g: Game, p: Cell): (res: (Game, Status))
    requires g.Valid()
    ensures res.0.Valid() && Preserves(g, res.0)
    ensures g.revealed <= res.0.revealed
    ensures !IsValidMove(g, p) ==> res == (g, InProgress)
    ensures IsValidMove(g, p) ==> p in res.0.revealed
    ensures res.1 == Lost <==> IsValidMove(g, p) && g.board.At(p) == MINE
    ensures res.1 == Lost ==> res.0.revealed == g.revealed + {p} && res.0.remaining == g.remaining
    ensures res.1 != Lost ==> Grows(g, res.0)
    ensures res.1 != Lost ==> (res.1 == Won <==> IsValidMove(g, p) && res.0.remaining == 0)
    ensures IsValidMove(g, p) && g.board.At(p) != MINE && g.board.At(p) != EMPTY ==>
      res.0.revealed == g.revealed + {p}
    ensures Closed(g, res.0)
    decreases g.Covered(), 0
  {
    if !IsValidMove(g, p) then (g, InProgress)
    else if g.board.At(p) == MINE then (Explode(g, p), Lost)
    else
      var counted := Uncover(g, p);
      if g.board.At(p) == EMPTY then
        var cascaded := Cascade(counted, p, 0).0;
        ClosedAfterCascade(g, counted, cascaded, p);
        (cascaded, if cascaded.remaining == 0 then Won else InProgress)
      else
        ClosedSingle(g, counted, p);
        (counted, if counted.remaining == 0 then Won else InProgress)
  }

  /** Every safe cell that the window displacements from the k-th on reach
      from p is revealed in g'. */
  ghost predicate Covers(g: Game, g': Game, p: Cell, k: nat)
    requires g.board.Valid()
  {
    forall i | k <= i < |Window| ::
      Shift(p, Window[i]) in g.board.Safe() ==> Shift(p, Window[i]) in g'.revealed
  }

  /** A win inside the cascade: nothing safe is left covered, so the state
      already covers and closes everything. */
  lemma WonStep(g: Game, next: Game, p: Cell, k: nat)
    requires g.Valid() && next.Valid() && Grows(g, next) && next.remaining == 0
    ensures Closed(g, next) && Covers(g, next, p, k)
  {
    NoneRemaining(next);
  }

  /** The k-th displacement was handled (its cell is revealed or not safe),
      and the rest of the window is covered by the recursive call. */
  lemma CoversStep(g: Game, next: Game, last: Game, p: Cell, k: nat)
    requires g.Valid() && next.Valid() && last.Valid() && k < |Window|
    requires Grows(g, next) && Grows(next, last)
    requires Shift(p, Window[k]) in g.board.Safe() ==> Shift(p, Window[k]) in next.revealed
    requires Covers(next, last, p, k + 1)
    ensures Covers(g, last, p, k)
  {
  }

  /** The loops of reveal over the window around an EMPTY cell p, from the
      k-th displacement on: each in-bounds, covered, non-mine cell is
      revealed in turn. A nested win ends the game, so the remaining
      displacements are not visited. */
  function Cascade(g: Game, p: Cell, k: nat): (res: (Game, Status))
    requires g.Valid() && k <= |Window|
    ensures res.0.Valid() && Grows(g, res.0)
    ensures res.1 != Lost
    ensures res.1 == Won ==> res.0.remaining == 0
    ensures Covers(g, res.0, p, k)
    ensures Closed(g, res.0)
    decreases g.Covered(), 1, |Window| - k
  {
    if k == |Window| then (g, InProgress)
    else
      var q := Shift(p, Window[k]);
      if 0 <= q.row < g.board.rows && 0 <= q.col < g.board.cols
         && q !in g.revealed && g.board.At(q) != MINE
      then
        var r := Reveal(g, q);
        var next := r.0;
        assert q in next.revealed;
        if r.1 == Won then
          WonStep(g, next, p, k);
          (next, Won)
        else
          var r' := Cascade(next, p, k + 1);
          var last := r'.0;
          GrowsTrans(g, next, last);
          ClosedTrans(g, next, last);
          CoversStep(g, next, last, p, k);
          r'
      else
        var r' := Cascade(g, p, k + 1);
        assert Grows(g, g);
        CoversStep(g, g, r'.0, p, k);
        r'
  }

  /** flag: a valid move marks p flagged; nothing else changes. */
  function Flag(g: Game, p: Cell): (g': Game)
    ensures g.Valid() ==> g'.Valid()
    ensures g'.board == g.board && g'.numMines == g.numMines
    ensures g'.revealed == g.revealed && g'.remaining == g.remaining
    ensures g'.flagged - {p} == g.flagged - {p}
    ensures p in g'.flagged <==> p in g.flagged || IsValidMove(g, p)
    ensures !IsValidMove(g, p) ==> g' == g
  {
    if IsValidMove(g, p) then g.(flagged := g.flagged + {p}) else g
  }

  /** unflag: a valid move clears the flag on p; nothing else changes. */
  function Unflag(g: Game, p: Cell): (g': Game)
    ensures g.Valid() ==> g'.Valid()
    ensures g'.board == g.board && g'.numMines == g.numMines
    ensures g'.revealed == g.revealed && g'.remaining == g.remaining
    ensures g'.flagged - {p} == g.flagged - {p}
    ensures p in g'.flagged <==> p in g.flagged && !IsValidMove(g, p)
    ensures !IsValidMove(g, p) ==> g' == g
  {
    if IsValidMove(g, p) then g.(flagged := g.flagged - {p}) else g
  }

  /** The character the board display prints for p: the flag marker takes
      precedence over the covered marker, which takes precedence over the
      board character. */
  function Glyph(g: Game, p: Cell): (ch: char)
    requires g.board.Valid() && g.board.InBounds(p)
    ensures Numbered(g.board) ==> (ch == FLAGGED <==> p in g.flagged)
    ensures Numbered(g.board) ==> (ch == COVERED <==> p !in g.flagged && p !in g.revealed)
  {
    if p in g.flagged then FLAGGED
    else if p !in g.revealed then COVERED
    else g.board.At(p)
  }
}

=== FILE: grid.dfy ===
/** The rectangular character grid of the game, its cells and the 3x3 window
    of displacements the engine scans around a cell. */
module Grid {

  /** The characters the engine stores in the board and prints. */
  const COVERED: char := '*'
  const FLAGGED: char := 'F'
  const MINE: char := 'M'
  const EMPTY: char := ' '

  /** A (row, column) position; it may lie outside the grid. */
  datatype Cell = Cell(row: int, col: int)

  /** The displacements (row offset, column offset) of the clipped 3x3 window,
      in the order the engine's nested loops visit them: row offset outer,
      column offset inner, both from -1 to 1. The centre (0, 0) is included. */
  const Window: seq<(int, int)> :=
    [(-1, -1), (-1, 0), (-1, 1), (0, -1), (0, 0), (0, 1), (1, -1), (1, 0), (1, 1)]

  function Shift(p: Cell, d: (int, int)): Cell {
    Cell(p.row + d.0, p.col + d.1)
  }

  /** q lies in the 3x3 window centred on p (p itself included). */
  predicate InWindow(p: Cell, q: Cell) {
    -1 <= q.row - p.row <= 1 && -1 <= q.col - p.col <= 1
  }

  /** q is one of the up to eight Moore neighbours of p. */
  predicate Adjacent(p: Cell, q: Cell) {
    p != q && InWindow(p, q)
  }

  /** Every cell with 0 <= row < rows and 0 <= col < cols. */
  function Cells(rows: int, cols: int): (s: set<Cell>)
    ensures forall p :: p in s <==> 0 <= p.row < rows && 0 <= p.col < cols
  {
    set r, c | 0 <= r < rows && 0 <= c < cols :: Cell(r, c)
  }

  /** A rows x cols character grid, indexed cells[row][col]. */
  datatype Board = Board(rows: int, cols: int, cells: seq<seq<char>>) {

    predicate Valid() {
      && 0 < rows && 0 < cols
      && |cells| == rows
      && forall i | 0 <= i < rows :: |cells[i]| == cols
    }

    predicate InBounds(p: Cell) {
      0 <= p.row < rows && 0 <= p.col < cols
    }

    function AllCells(): (s: set<Cell>)
      ensures forall p :: p in s <==> InBounds(p)
    {
      Cells(rows, cols)
    }

    function At(p: Cell): char
      requires Valid() && InBounds(p)
    {
      cells[p.row][p.col]
    }

    /** The board with the single cell p overwritten by ch. */
    function Set(p: Cell, ch: char): (b: Board)
      requires Valid() && InBounds(p)
      ensures b.Valid() && b.rows == rows && b.cols == cols
      ensures b.At(p) == ch
      ensures forall q | InBounds(q) && q != p :: b.At(q) == At(q)
    {
      Board(rows, cols, cells[p.row := cells[p.row][p.col := ch]])
    }

    /** The cells holding a mine. */
    function Mines(): (s: set<Cell>)
      requires Valid()
      ensures forall p :: p in s <==> InBounds(p) && At(p) == MINE
    {
      set p | p in AllCells() && At(p) == MINE
    }

    /** The cells not holding a mine. */
    function Safe(): (s: set<Cell>)
      requires Valid()
      ensures forall p :: p in s <==> InBounds(p) && At(p) != MINE
    {
      set p | p in AllCells() && At(p) != MINE
    }
  }

  /** Writing a mine adds exactly that cell to the mines. */
  lemma SetMine(b: Board, p: Cell)
    requires b.Valid() && b.InBounds(p)
    ensures b.Set(p, MINE).Mines() == b.Mines() + {p}
  {
    var b' := b.Set(p, MINE);
    assert forall q :: q in b'.Mines() <==> q in b.Mines() || q == p;
  }

  /** Overwriting a non-mine cell with a non-mine character changes neither
      the mines nor the safe cells. */
  lemma SetSafe(b: Board, p: Cell, ch: char)
    requires b.Valid() && b.InBounds(p) && b.At(p) != MINE && ch != MINE
    ensures b.Set(p, ch).Mines() == b.Mines()
    ensures b.Set(p, ch).Safe() == b.Safe()
  {
    var b' := b.Set(p, ch);
    assert forall q :: q in b'.Mines() <==> q in b.Mines();
    assert forall q :: q in b'.Safe() <==> q in b.Safe();
  }

  /** The freshly allocated board: every cell COVERED. */
  function Blank(rows: int, cols: int): (b: Board)
    requires 0 < rows && 0 < cols
    ensures b.Valid() && b.rows == rows && b.cols == cols
    ensures b.Mines() == {}
    ensures forall p | b.InBounds(p) :: b.At(p) == COVERED
  {
    Board(rows, cols, seq(rows, _ => seq(cols, _ => COVERED)))
  }

  /** The cells of one row. */
  function RowCells(r: int, cols: int): (s: set<Cell>)
    ensures forall p :: p in s <==> p.row == r && 0 <= p.col < cols
  {
    set c | 0 <= c < cols :: Cell(r, c)
  }

  lemma {:induction false} RowCellsCard(r: int, cols: nat)
    ensures |RowCells(r, cols)| == cols
  {
    if cols > 0 {
      var whole, init, c := RowCells(r, cols), RowCells(r, cols - 1), Cell(r, cols - 1);
      RowCellsCard(r, cols - 1);
      assert c !in init;
      assert whole == init + {c} by {
        forall p ensures p in whole <==> p in init || p == c {
        }
      }
    } else {
      assert RowCells(r, cols) == {};
    }
  }

  /** The last row splits off the grid. */
  lemma CellsSplit(rows: int, cols: int)
    requires 0 < rows
    ensures Cells(rows, cols) == Cells(rows - 1, cols) + RowCells(rows - 1, cols)
    ensures Cells(rows - 1, cols) !! RowCells(rows - 1, cols)
  {
    var whole, above, last := Cells(rows, cols), Cells(rows - 1, cols), RowCells(rows - 1, cols);
    assert forall p :: p in whole <==> p in above || p in last;
  }

  /** A rows x cols grid has exactly rows * cols cells. */
  lemma {:induction false} CellsCard(rows: nat, cols: nat)
    ensures |Cells(rows, cols)| == rows * cols
  {
    if rows > 0 {
      CellsCard(rows - 1, cols);
      RowCellsCard(rows - 1, cols);
      CellsSplit(rows, cols);
      assert |Cells(rows, cols)| == (rows - 1) * cols + cols;
    } else {
      assert Cells(rows, cols) == {};
    }
  }

  /** The safe cells are the grid minus the mines, so there are
      rows * cols - |mines| of them. */
  lemma SafeCount(b: Board)
    requires b.Valid()
    ensures b.Safe() == b.AllCells() - b.Mines()
    ensures |b.Safe()| == b.rows * b.cols - |b.Mines()|
  {
    assert b.Safe() == b.AllCells() - b.Mines();
    assert b.AllCells() == b.Safe() + b.Mines();
    CellsCard(b.rows, b.cols);
  }
}

=== FILE: properties.dfy ===
/** Properties that relate several moves, or a move to an independent
    description of its effect. */
module Properties {
  import opened Grid
  import opened Adjacency
  import opened Setup
  import opened Engine

  /** The valid moves are exactly the moves that change the game: a reveal
      of a valid cell reveals it, flag and unflag of a valid cell disagree on
      its flag, and every command on an invalid cell leaves the game as it was. */
  lemma ValidMoveChanges(g: Game, p: Cell)
    requires g.Valid()
    ensures IsValidMove(g, p) <==> Reveal(g, p).0 != g
    ensures IsValidMove(g, p) <==> Flag(g, p) != Unflag(g, p)
  {
    if IsValidMove(g, p) {
      assert p in Reveal(g, p).0.revealed && p !in g.revealed;
      assert p in Flag(g, p).flagged && p !in Unflag(g, p).flagged;
    }
  }

  /** The counter is 0 exactly when every safe cell is revealed. */
  lemma WinCondition(g: Game)
    requires g.Valid()
    ensures g.remaining == 0 <==> g.board.Safe() <= g.revealed
  {
    if g.board.Safe() <= g.revealed {
      assert CoveredSafe(g.board, g.revealed) == {};
    } else {
      var x :| x in g.board.Safe() && x !in g.revealed;
      assert x in CoveredSafe(g.board, g.revealed);
    }
  }

  /** Each safe cell a reveal uncovers lowers the counter by exactly one, so
      the counter plus the number of revealed cells is unchanged; a mine is
      revealed without touching the counter. */
  lemma RevealCounter(g: Game, p: Cell)
    requires g.Valid()
    ensures var (g', status) := Reveal(g, p);
      && (status != Lost ==> g'.remaining + |g'.revealed| == g.remaining + |g.revealed|)
      && (status == Lost ==> g'.remaining == g.remaining && |g'.revealed| == |g.revealed| + 1)
  {
    var (g', status) := Reveal(g, p);
    if status != Lost {
      CounterStep(g.board, g.revealed, g'.revealed);
    } else {
      assert p !in g.revealed;
    }
  }

  /** Revealing the safe cells r' - r moves exactly that many cells from the
      covered safe cells to the revealed ones. */
  lemma CounterStep(b: Board, r: set<Cell>, r': set<Cell>)
    requires b.Valid() && r <= r' && r' - r <= b.Safe()
    ensures |CoveredSafe(b, r')| + |r'| == |CoveredSafe(b, r)| + |r|
  {
    var a, a', d := CoveredSafe(b, r), CoveredSafe(b, r'), r' - r;
    assert a == a' + d && a' !! d;
    assert r' == r + d && r !! d;
  }

  /** On a well-formed game, every EMPTY cell a reveal uncovers ends with all
      of its in-bounds neighbours revealed, and no mine is uncovered except
      the cell chosen by the move itself. */
  lemma RevealOpensNeighbours(g: Game, p: Cell)
    requires g.WellFormed()
    ensures var g' := Reveal(g, p).0;
      forall q, n | q in g'.revealed - g.revealed && g.board.At(q) == EMPTY && g.board.InBounds(n) && Adjacent(q, n) ::
        n in g'.revealed
    ensures var g' := Reveal(g, p).0;
      forall q | q in g'.revealed - g.revealed && q != p :: q in g.board.Safe()
  {
    NumberedSafeAroundEmpty(g.board);
    CascadeOpensNeighbours(g, p);
  }

  /** When every neighbour of an EMPTY cell is safe, as numbering makes it
      (Adjacency.NumberedSafeAroundEmpty), every EMPTY cell a reveal uncovers
      ends with all of its in-bounds neighbours revealed, and no mine is
      uncovered except the cell chosen by the move itself. */
  lemma CascadeOpensNeighbours(g: Game, p: Cell)
    requires g.Valid() && SafeAroundEmpty(g.board)
    ensures var g' := Reveal(g, p).0;
      forall q, n | q in g'.revealed - g.revealed && g.board.At(q) == EMPTY && g.board.InBounds(n) && Adjacent(q, n) ::
        n in g'.revealed
    ensures var g' := Reveal(g, p).0;
      forall q | q in g'.revealed - g.revealed && q != p :: q in g.board.Safe()
  {
    var g' := Reveal(g, p).0;
    forall q, n | q in g'.revealed - g.revealed && g.board.At(q) == EMPTY && g.board.InBounds(n) && Adjacent(q, n)
      ensures n in g'.revealed
    {
      ClosedNeighbour(g, g', q, n);
    }
  }

  /** A safe neighbour of a newly revealed EMPTY cell of a closed extension is
      revealed. */
  lemma ClosedNeighbour(g: Game, g': Game, q: Cell, n: Cell)
    requires g.board.Valid() && SafeAroundEmpty(g.board) && Closed(g, g')
    requires q in g'.revealed && q !in g.revealed && g.board.InBounds(q) && g.board.At(q) == EMPTY
    requires g.board.InBounds(n) && Adjacent(q, n)
    ensures n in g'.revealed
  {
    assert g.board.At(n) != MINE;
    assert Opened(g', q);
    OpenedNeighbour(g', q, n.row - q.row, n.col - q.col);
  }

  /** A flagged cell uncovered by a reveal stays flagged: reveal never reads
      or writes the flags. */
  lemma RevealKeepsFlags(g: Game, p: Cell)
    requires g.Valid() && p in g.flagged && p !in g.revealed
    ensures var g' := Reveal(g, p).0;
      p in g'.revealed && p in g'.flagged && g'.flagged == g.flagged
  {
  }

  /** flag and unflag are idempotent. */
  lemma FlagIdempotent(g: Game, p: Cell)
    ensures Flag(Flag(g, p), p) == Flag(g, p)
    ensures Unflag(Unflag(g, p), p) == Unflag(g, p)
  {
  }

  /** unflag undoes flag on an unflagged cell, and flag undoes unflag on a
      flagged one. */
  lemma FlagUnflagInverse(g: Game, p: Cell)
    ensures p !in g.flagged ==> Unflag(Flag(g, p), p) == g
    ensures p in g.flagged ==> Flag(Unflag(g, p), p) == g
  {
    if p !in g.flagged && IsValidMove(g, p) {
      assert (g.flagged + {p}) - {p} == g.flagged;
    }
    if p in g.flagged && IsValidMove(g, p) {
      assert (g.flagged - {p}) + {p} == g.flagged;
    }
  }

  /** What the display shows for a cell of a well-formed game: the flag
      marker exactly for flagged cells, the covered marker exactly for
      unflagged covered cells, the mine only for a revealed mine, and for a
      revealed safe cell a character that reads back as its number of
      adjacent mines, blank exactly when there are none. */
  lemma GlyphShows(g: Game, p: Cell)
    requires g.WellFormed() && g.board.InBounds(p)
    ensures Glyph(g, p) == FLAGGED <==> p in g.flagged
    ensures Glyph(g, p) == COVERED <==> p !in g.flagged && p !in g.revealed
    ensures Glyph(g, p) == MINE <==> p !in g.flagged && p in g.revealed && p in g.board.Mines()
    ensures p !in g.flagged && p in g.revealed && p in g.board.Safe() ==>
      && CountOf(Glyph(g, p)) == |NeighbourMines(g.board, p)|
      && (Glyph(g, p) == EMPTY <==> NeighbourMines(g.board, p) == {})
  {
    if p in g.board.Safe() {
      NumberedCell(g.board, p);
    }
  }

  /** A command of the game loop. */
  datatype Move = RevealMove(at: Cell) | FlagMove(at: Cell) | UnflagMove(at: Cell)

  /** One command dispatched to the engine. */
  function Step(g: Game, m: Move): (res: (Game, Status))
    requires g.Valid()
    ensures res.0.Valid() && res.0.board == g.board && res.0.numMines == g.numMines
    ensures g.revealed <= res.0.revealed
    ensures !m.RevealMove? ==> res.1 == InProgress && res.0.revealed == g.revealed
  {
    match m
    case RevealMove(p) => Reveal(g, p)
    case FlagMove(p) => (Flag(g, p), InProgress)
    case UnflagMove(p) => (Unflag(g, p), InProgress)
  }

  /** A session: commands are applied in order until one ends the game. */
  function Play(g: Game, moves: seq<Move>): (res: (Game, Status))
    requires g.Valid()
    ensures res.0.Valid() && res.0.board == g.board && res.0.numMines == g.numMines
    ensures g.revealed <= res.0.revealed
    decreases |moves|
  {
    if |moves| == 0 then (g, InProgress)
    else
      var (next, status) := Step(g, moves[0]);
      if status != InProgress then (next, status) else Play(next, moves[1..])
  }

  /** What a session from g to g' ending in status promises: the game is
      still well-formed on the same board, revealed cells stay revealed, the
      session is lost exactly when it uncovered a mine, and it is won only
      once every safe cell is revealed. */
  ghost predicate SessionOutcome(g: Game, g': Game, status: Status)
    requires g.Valid()
  {
    && g'.WellFormed() && g'.board == g.board
    && g.revealed <= g'.revealed
    && (status == Lost <==> !(g'.revealed - g.revealed <= g.board.Safe()))
    && (status == Won ==> g.board.Safe() <= g'.revealed)
  }

  /** One command keeps the session promises. */
  lemma StepOutcome(g: Game, m: Move)
    requires g.WellFormed()
    ensures SessionOutcome(g, Step(g, m).0, Step(g, m).1)
  {
    var (next, status) := Step(g, m);
    if status == Won {
      WinCondition(next);
    }
  }

  /** A session that continues after a command is a session from the state
      before it. */
  lemma SessionTrans(g: Game, next: Game, final: Game, status: Status)
    requires g.Valid() && next.Valid()
    requires SessionOutcome(g, next, InProgress) && SessionOutcome(next, final, status)
    ensures SessionOutcome(g, final, status)
  {
    assert final.revealed - g.revealed == (final.revealed - next.revealed) + (next.revealed - g.revealed);
  }

  /** Across a whole session the game keeps its invariants; only a reveal of
      a mine loses, and a win means every safe cell is revealed. */
  lemma {:induction false} PlayOutcome(g: Game, moves: seq<Move>)
    requires g.WellFormed()
    ensures SessionOutcome(g, Play(g, moves).0, Play(g, moves).1)
    decreases |moves|
  {
    if |moves| > 0 {
      var step := Step(g, moves[0]);
      StepOutcome(g, moves[0]);
      if step.1 == InProgress {
        var rest := Play(step.0, moves[1..]);
        PlayOutcome(step.0, moves[1..]);
        SessionTrans(g, step.0, rest.0, rest.1);
      }
    }
  }

  /** The constructor on a 1 x 3 grid without mines builds the all-blank
      row that RowWithoutMines plays on, whatever the random source. */
  method RowGame(samples: seq<Cell>) returns (r: Option<Game>)
    requires SamplesIn(1, 3, samples)
    ensures r == Some(Game(Board(1, 3, [[EMPTY, EMPTY, EMPTY]]), 0, {}, {}, 3))
  {
    r := NewGame(1, 3, 0, samples);
    assert |r.value.board.Mines()| == 0;
    RowBoard(r.value.board);
  }

  /** The only numbered 1 x 3 board without mines is the all-blank row. */
  lemma RowBoard(b: Board)
    requires b.Valid() && b.rows == 1 && b.cols == 3 && b.Mines() == {} && Numbered(b)
    ensures b == Board(1, 3, [[EMPTY, EMPTY, EMPTY]])
  {
    forall p | p in b.Safe() ensures b.At(p) == EMPTY {
      CountInZero(b.Mines(), p, Window);
    }
    assert b.At(Cell(0, 0)) == EMPTY && b.At(Cell(0, 1)) == EMPTY && b.At(Cell(0, 2)) == EMPTY;
    assert b.cells[0] == [EMPTY, EMPTY, EMPTY];
  }

  /** The constructor on a 2 x 2 grid with one mine, when the first draw of
      the random source is (0, 0), builds the board CornerMine plays on,
      whatever the later draws are. */
  method CornerGame(samples: seq<Cell>) returns (r: Option<Game>)
    requires SamplesIn(2, 2, samples) && |samples| > 0 && samples[0] == Cell(0, 0)
    ensures r == Some(Game(Board(2, 2, [[MINE, '1'], ['1', '1']]), 1, {}, {}, 3))
  {
    var c := Cell(0, 0);
    assert c in Elems(samples);
    r := NewGame(2, 2, 1, samples);
    var mines := r.value.board.Mines();
    var k :| 0 <= k <= |samples| && mines == Elems(samples[..k]);
    FirstDrawMine(samples, k, mines);
    CornerBoard(r.value.board);
  }

  /** A single mine taken from a prefix of the draws is the first draw. */
  lemma FirstDrawMine(samples: seq<Cell>, k: nat, mines: set<Cell>)
    requires 0 < |samples| && k <= |samples| && mines == Elems(samples[..k]) && |mines| == 1
    ensures mines == {samples[0]}
  {
    var c := samples[0];
    assert k > 0;
    assert samples[..k][0] == c;
    assert c in mines;
    assert |mines - {c}| == 0;
    assert mines == (mines - {c}) + {c};
  }

  /** The only numbered 2 x 2 board whose single mine is at (0, 0). */
  lemma CornerBoard(b: Board)
    requires b.Valid() && b.rows == 2 && b.cols == 2 && b.Mines() == {Cell(0, 0)} && Numbered(b)
    ensures b == Board(2, 2, [[MINE, '1'], ['1', '1']])
  {
    forall p | p in b.Safe() ensures b.At(p) == '1' {
      AdjacentCountExact(b, p);
      assert NeighbourMines(b, p) == {Cell(0, 0)};
    }
    assert Cell(0, 1) in b.Safe() && Cell(1, 0) in b.Safe() && Cell(1, 1) in b.Safe();
    assert b.At(Cell(0, 0)) == MINE;
    assert b.cells[0] == [MINE, '1'];
    assert b.cells[1] == ['1', '1'];
  }

  /** A 1 x 3 board without mines: revealing the first cell cascades along
      the row and wins in one move. */
  lemma RowWithoutMines(g: Game, c: Cell)
    requires g == Game(Board(1, 3, [[EMPTY, EMPTY, EMPTY]]), 0, {}, {}, 3) && c == Cell(0, 0)
    ensures g.WellFormed()
    ensures Reveal(g, c) == (g.(revealed := g.board.AllCells(), remaining := 0), Won)
  {
    RowWithoutMinesWellFormed(g);
    RowReveal(g, c, Cell(0, 1), Cell(0, 2));
  }

  lemma RowReveal(g: Game, c0: Cell, c1: Cell, c2: Cell)
    requires g.Valid() && g.revealed == {}
    requires c0 == Cell(0, 0) && c1 == Cell(0, 1) && c2 == Cell(0, 2)
    requires g.board.Safe() == g.board.AllCells() == {c0, c1, c2}
    requires forall p | p in g.board.Safe() :: g.board.At(p) == EMPTY
    ensures Reveal(g, c0) == (g.(revealed := g.board.AllCells(), remaining := 0), Won)
  {
    var g' := Reveal(g, c0).0;
    RowCascade(g, g', c0, c1, c2);
    assert g'.revealed == g.board.AllCells();
    WinCondition(g');
  }

  lemma RowWithoutMinesWellFormed(g: Game)
    requires g == Game(Board(1, 3, [[EMPTY, EMPTY, EMPTY]]), 0, {}, {}, 3)
    ensures g.WellFormed()
    ensures g.board.Safe() == g.board.AllCells() == {Cell(0, 0), Cell(0, 1), Cell(0, 2)}
    ensures forall p | p in g.board.Safe() :: g.board.At(p) == EMPTY
  {
    RowCells3(g.board);
    RowNumbered(g.board);
    RowWellFormed(g);
  }

  lemma RowNumbered(b: Board)
    requires b.Valid() && b.Mines() == {}
    requires forall p | p in b.Safe() :: b.At(p) == EMPTY
    ensures Numbered(b)
  {
    forall p | p in b.Safe() ensures b.At(p) == CellChar(AdjacentCount(b, p)) {
      CountInZero(b.Mines(), p, Window);
    }
  }

  lemma RowWellFormed(g: Game)
    requires g.board.Valid() && g.numMines == 0 && g.revealed == {} && g.flagged == {} && g.remaining == 3
    requires g.board.Mines() == {} && Numbered(g.board)
    requires g.board.Safe() == g.board.AllCells() == {Cell(0, 0), Cell(0, 1), Cell(0, 2)}
    ensures g.WellFormed()
  {
    assert CoveredSafe(g.board, g.revealed) == g.board.Safe();
    ThreeCells(Cell(0, 0), Cell(0, 1), Cell(0, 2));
  }

  lemma RowCells3(b: Board)
    requires b == Board(1, 3, [[EMPTY, EMPTY, EMPTY]])
    ensures b.Mines() == {}
    ensures b.Safe() == b.AllCells() == {Cell(0, 0), Cell(0, 1), Cell(0, 2)}
    ensures forall p | p in b.Safe() :: b.At(p) == EMPTY
  {
    assert forall p | b.InBounds(p) :: p == Cell(0, 0) || p == Cell(0, 1) || p == Cell(0, 2);
  }

  /** The two steps of the cascade along the row. */
  lemma RowCascade(g: Game, g': Game, c0: Cell, c1: Cell, c2: Cell)
    requires g.Valid() && g'.Valid() && Grows(g, g') && Closed(g, g')
    requires g.revealed == {} && c0 in g'.revealed
    requires c0 == Cell(0, 0) && c1 == Cell(0, 1) && c2 == Cell(0, 2)
    requires g.board.Safe() == g.board.AllCells() == {c0, c1, c2}
    requires forall p | p in g.board.Safe() :: g.board.At(p) == EMPTY
    ensures c0 in g'.revealed && c1 in g'.revealed && c2 in g'.revealed
  {
    RowStep(g, g', c0, c1);
    RowStep(g, g', c1, c2);
  }

  /** In a closed extension, the right-hand neighbour of a newly revealed
      EMPTY cell is revealed too, when it is safe. */
  lemma RowStep(g: Game, g': Game, c: Cell, d: Cell)
    requires g.board.Valid() && Closed(g, g')
    requires c in g'.revealed && c !in g.revealed && g.board.InBounds(c) && g.board.At(c) == EMPTY
    requires d == Cell(c.row, c.col + 1) && d in g.board.Safe()
    ensures d in g'.revealed
  {
    assert Opened(g', c);
    OpenedNeighbour(g', c, 0, 1);
  }

  /** A 2 x 2 board with its mine in the corner (0, 0): the other three
      cells show 1, and revealing (1, 1) uncovers that cell alone. */
  lemma CornerMine(g: Game, c: Cell)
    requires g == Game(Board(2, 2, [[MINE, '1'], ['1', '1']]), 1, {}, {}, 3) && c == Cell(1, 1)
    ensures g.WellFormed()
    ensures Reveal(g, c) == (g.(revealed := {c}, remaining := 2), InProgress)
  {
    CornerFacts(g);
    NumberedRevealsOne(g, c);
    assert g.revealed + {c} == {c};
  }

  lemma CornerFacts(g: Game)
    requires g == Game(Board(2, 2, [[MINE, '1'], ['1', '1']]), 1, {}, {}, 3)
    ensures g.WellFormed() && g.revealed == {} && g.remaining == 3
    ensures IsValidMove(g, Cell(1, 1)) && g.board.At(Cell(1, 1)) == '1'
  {
    CornerCells(g.board);
    CornerNumbered(g.board);
    CornerWellFormed(g);
  }

  lemma CornerWellFormed(g: Game)
    requires g.board.Valid() && g.numMines == 1 && g.revealed == {} && g.flagged == {} && g.remaining == 3
    requires g.board.Mines() == {Cell(0, 0)} && Numbered(g.board)
    requires g.board.Safe() == {Cell(0, 1), Cell(1, 0), Cell(1, 1)}
    ensures g.WellFormed()
  {
    assert CoveredSafe(g.board, g.revealed) == g.board.Safe();
    ThreeCells(Cell(0, 1), Cell(1, 0), Cell(1, 1));
  }

  lemma ThreeCells(a: Cell, b: Cell, c: Cell)
    requires a != b && b != c && a != c
    ensures |{a, b, c}| == 3
  {
    assert {a, b, c} == {a, b} + {c};
  }

  /** Revealing a covered numbered cell uncovers that cell alone. */
  lemma NumberedRevealsOne(g: Game, p: Cell)
    requires g.Valid() && IsValidMove(g, p) && g.board.At(p) != MINE && g.board.At(p) != EMPTY
    requires g.remaining > 1
    ensures Reveal(g, p) == (g.(revealed := g.revealed + {p}, remaining := g.remaining - 1), InProgress)
  {
  }

  lemma CornerCells(b: Board)
    requires b == Board(2, 2, [[MINE, '1'], ['1', '1']])
    ensures b.Mines() == {Cell(0, 0)}
    ensures b.Safe() == {Cell(0, 1), Cell(1, 0), Cell(1, 1)}
    ensures forall p | p in b.Safe() :: b.At(p) == '1'
  {
    assert forall p | b.InBounds(p) :: p == Cell(0, 0) || p == Cell(0, 1) || p == Cell(1, 0) || p == Cell(1, 1);
  }

  lemma CornerNumbered(b: Board)
    requires b.Valid() && b.Mines() == {Cell(0, 0)}
    requires b.Safe() == {Cell(0, 1), Cell(1, 0), Cell(1, 1)}
    requires forall p | p in b.Safe() :: b.At(p) == '1'
    ensures Numbered(b)
  {
    forall p | p in b.Safe() ensures b.At(p) == CellChar(AdjacentCount(b, p)) {
      AdjacentCountExact(b, p);
      assert NeighbourMines(b, p) == {Cell(0, 0)};
    }
  }
}

=== FILE: setup.dfy ===
/** Board initialisation: mine placement by rejection sampling, then the
    adjacency numbering pass. */
module Setup {
  import opened Grid
  import opened Adjacency

  datatype Option<T> = None | Some(value: T)

  /** The distinct cells named by a sample sequence. */
  function Elems(s: seq<Cell>): set<Cell> {
    set i | 0 <= i < |s| :: s[i]
  }

  /** Every sample names a cell of a rows x cols grid, as draws of
      nextInt(rows) and nextInt(cols) do. */
  predicate SamplesIn(rows: int, cols: int, samples: seq<Cell>) {
    forall i | 0 <= i < |samples| :: 0 <= samples[i].row < rows && 0 <= samples[i].col < cols
  }

  lemma ElemsSnoc(s: seq<Cell>, k: nat)
    requires k < |s|
    ensures Elems(s[..k + 1]) == Elems(s[..k]) + {s[k]}
  {
    var a, b := s[..k + 1], s[..k];
    assert forall i | 0 <= i < k :: a[i] == b[i];
    assert forall x :: x in Elems(a) <==> x in Elems(b) || x == s[k];
  }

  lemma ElemsPrefix(s: seq<Cell>, k: nat)
    requires k <= |s|
    ensures Elems(s[..k]) <= Elems(s)
    ensures |Elems(s[..k])| <= |Elems(s)|
  {
    var a := s[..k];
    assert forall i | 0 <= i < k :: a[i] == s[i];
    assert Elems(s) == Elems(a) + (Elems(s) - Elems(a));
  }

  /** In-bounds samples name at most rows * cols distinct cells. */
  lemma ElemsBound(rows: int, cols: int, samples: seq<Cell>)
    requires 0 < rows && 0 < cols && SamplesIn(rows, cols, samples)
    ensures |Elems(samples)| <= rows * cols
  {
    assert Elems(samples) <= Cells(rows, cols);
    SubsetCard(Elems(samples), Cells(rows, cols));
    CellsCard(rows, cols);
  }

  lemma SubsetCard<T>(a: set<T>, b: set<T>)
    requires a <= b
    ensures |a| <= |b|
  {
    assert b == a + (b - a);
  }

  /** Writing a mine on a covered safe cell of a covered board adds one
      mine and keeps every other safe cell covered. */
  lemma PlaceStep(b: Board, p: Cell)
    requires b.Valid() && b.InBounds(p) && b.At(p) != MINE
    requires forall q | q in b.Safe() :: b.At(q) == COVERED
    ensures b.Set(p, MINE).Mines() == b.Mines() + {p}
    ensures |b.Set(p, MINE).Mines()| == |b.Mines()| + 1
    ensures forall q | q in b.Set(p, MINE).Safe() :: b.Set(p, MINE).At(q) == COVERED
  {
    SetMine(b, p);
    assert p !in b.Mines();
  }

  /** The placement loop. The random source is a sequence of samples; a
      sample that already holds a mine is drawn again, i.e. skipped. The loop
      stops once numMines cells are mines, or, since the sequence is finite,
      when the samples run out, in which case there is no board. */
  method PlaceMines(rows: int, cols: int, numMines: int, samples: seq<Cell>) returns (r: Option<Board>)
    requires 0 < rows && 0 < cols && 0 <= numMines
    requires SamplesIn(rows, cols, samples)
    ensures r.None? <==> |Elems(samples)| < numMines
    ensures rows * cols < numMines ==> r.None?
    ensures r.Some? ==> r.value.Valid() && r.value.rows == rows && r.value.cols == cols
    ensures r.Some? ==> |r.value.Mines()| == numMines && r.value.Mines() <= Elems(samples)
    ensures r.Some? ==> exists k | 0 <= k <= |samples| :: r.value.Mines() == Elems(samples[..k])
    ensures r.Some? ==> forall p | p in r.value.Safe() :: r.value.At(p) == COVERED
  {
    var b := Blank(rows, cols);
    var placed := 0;
    var k := 0;
    while placed < numMines && k < |samples|
      invariant 0 <= k <= |samples|
      invariant b.Valid() && b.rows == rows && b.cols == cols
      invariant forall p | p in b.Safe() :: b.At(p) == COVERED
      invariant b.Mines() == Elems(samples[..k])
      invariant placed == |b.Mines()| <= numMines
    {
      var p := samples[k];
      ElemsSnoc(samples, k);
      if b.At(p) != MINE {
        PlaceStep(b, p);
        b := b.Set(p, MINE);
        placed := placed + 1;
      }
      k := k + 1;
    }
    ElemsPrefix(samples, k);
    ElemsBound(rows, cols, samples);
    if placed < numMines {
      assert samples[..k] == samples;
      return None;
    }
    assert b.Mines() == Elems(samples[..k]);
    return Some(b);
  }

  /** The numbering pass: every non-mine cell, in row-major order, is
      overwritten by the character for its adjacency count. Only MINE cells
      are ever compared, so earlier overwrites do not change later counts. */
  method AssignNumbers(b0: Board) returns (b: Board)
    requires b0.Valid()
    ensures b.Valid() && b.rows == b0.rows && b.cols == b0.cols
    ensures b.Mines() == b0.Mines()
    ensures Numbered(b)
  {
    b := b0;
    var i := 0;
    while i < b.rows
      invariant 0 <= i <= b0.rows
      invariant b.Valid() && b.rows == b0.rows && b.cols == b0.cols
      invariant b.Mines() == b0.Mines() && b.Safe() == b0.Safe()
      invariant NumberedBefore(b0, b, i, 0)
    {
      var j := 0;
      while j < b.cols
        invariant 0 <= j <= b.cols
        invariant b.Valid() && b.rows == b0.rows && b.cols == b0.cols
        invariant b.Mines() == b0.Mines() && b.Safe() == b0.Safe()
        invariant NumberedBefore(b0, b, i, j)
      {
        var p := Cell(i, j);
        if b.At(p) != MINE {
          var n := CountAdjacentMines(b, p);
          AdjacentCountStable(b, b0, p);
          NumberStep(b0, b, i, j, CellChar(n));
          b := b.Set(p, CellChar(n));
        }
        j := j + 1;
      }
      i := i + 1;
    }
    forall p | p in b.Safe() ensures b.At(p) == CellChar(AdjacentCount(b, p)) {
      AdjacentCountStable(b, b0, p);
    }
  }

  /** Every non-mine cell before (i, j) in row-major order holds the
      character for its adjacency count on b0. */
  ghost predicate NumberedBefore(b0: Board, b: Board, i: int, j: int)
    requires b0.Valid() && b.Valid()
  {
    forall p | p in b.Safe() && (p.row < i || (p.row == i && p.col < j)) ::
      b.At(p) == CellChar(AdjacentCount(b0, p))
  }

  /** Numbering the non-mine cell (i, j) extends the numbered prefix by one
      cell and keeps the mines. */
  lemma NumberStep(b0: Board, b: Board, i: int, j: int, ch: char)
    requires b0.Valid() && b.Valid() && b.rows == b0.rows && b.cols == b0.cols
    requires b.Mines() == b0.Mines() && b.Safe() == b0.Safe()
    requires 0 <= i < b.rows && 0 <= j < b.cols && b.At(Cell(i, j)) != MINE
    requires ch == CellChar(AdjacentCount(b0, Cell(i, j)))
    requires NumberedBefore(b0, b, i, j)
    ensures b.Set(Cell(i, j), ch).Mines() == b0.Mines()
    ensures b.Set(Cell(i, j), ch).Safe() == b0.Safe()
    ensures NumberedBefore(b0, b.Set(Cell(i, j), ch), i, j + 1)
  {
    SetSafe(b, Cell(i, j), ch);
  }

  /** Mine placement followed by numbering. */
  method InitializeBoard(rows: int, cols: int, numMines: int, samples: seq<Cell>) returns (r: Option<Board>)
    requires 0 < rows && 0 < cols && 0 <= numMines
    requires SamplesIn(rows, cols, samples)
    ensures r.None? <==> |Elems(samples)| < numMines
    ensures rows * cols < numMines ==> r.None?
    ensures r.Some? ==> r.value.Valid() && r.value.rows == rows && r.value.cols == cols
    ensures r.Some? ==> |r.value.Mines()| == numMines && r.value.Mines() <= Elems(samples)
    ensures r.Some? ==> exists k | 0 <= k <= |samples| :: r.value.Mines() == Elems(samples[..k])
    ensures r.Some? ==> Numbered(r.value)
  {
    var placed := PlaceMines(rows, cols, numMines, samples);
    if placed.None? {
      return None;
    }
    var b := AssignNumbers(placed.value);
    return Some(b);
  }
}
